=== FILE: README.md ===
# Discovered-accounts differ

A model of the core of the `CyberArkDiscoveredAccounts` function. On each run it does the following:

- It reads the number of discovered accounts and walks the paged listing (1000 per page) to collect the current account ids.
- It compares them with the id list and the account details stored by the previous run.
- It fetches the details of every current account.
- It classifies each account:
  - An account **new** since the last run is reported when it has dependencies or belongs to an administrators group. When it belongs to an administrators group, its `osGroups` is cut down to the allowlisted group names; otherwise it is reported unchanged.
  - An account **already known** is reported when it gained dependencies or gained an administrators group. The report replaces `dependencies` (and its count) and `osGroups` with the added ones when there are any; every other field keeps its current value.
- It stores four artifacts:
  - all fetched details;
  - the newline-separated id list;
  - the new-account reports;
  - the updated-old-account reports.

The model is in seven modules:

- `wrappers.dfy` (module `Wrappers`): `Option` and `Result` (a failure-propagating result).
- `text.dfy` (module `Text`): Python's `str.strip()` (the full Python whitespace set), `str.split(c)` and `sep.join(...)`, with their round-trip lemmas.
- `accounts.dfy` (module `Accounts`): the account record, the new-account filter (`process_new_accounts`) and the old-account delta (`process_old_account`).
- `paging.dfy` (module `Paging`): `floor(count / 1000)`, the page requests, and the loop that unions the page ids.
- `idlist.dfy` (module `IdList`): the stored id list: `'\n'.join` and its split / drop-empty / strip reading.
- `discovery.dfy` (module `Discovery`): the new-id computation, the classification loop over caller-owned accumulators (class `DiffRun`), and the whole run (`Discover`).
- `account_examples.dfy` (module `AccountExamples`): edge cases of the differ (spaced group lists, missing counts, dependency deltas) stated as lemmas.

How Python concepts are represented:

- **Records.** An account record is a datatype whose optional fields are `Option` values: `None` is a missing key. Python's `get(key) != 0` is therefore true for a missing count.
- **Stateful parts.** The accumulators that `get_account_details` fills in place are the fields of the class `DiffRun`. `ProcessNewAccount`, `ProcessOldAccount` and `GetAccountDetails` update them.
- **Specifications.** Each method is proved equal to a pure specification:
  - `NewAccountReport` and `OldAccountReport` for the two per-account methods;
  - `Walk`, a left fold of `Step` over the ids, for the loop.
- **Exceptions.** An exception is a `Failure` carrying an `Error`:
  - `HttpError` for the non-200 fetch of line 57;
  - `KeyError` for the dictionary lookups at lines 53 and 80.

## Model

| member | source | states |
|---|---|---|
| Text.Strip | python/CyberArkDiscoveredAccounts/__init__.py:62 | trimming never lengthens the text |
| Text.StripIsSlice | python/CyberArkDiscoveredAccounts/__init__.py:62 | `strip()` gives the slice of the text between a leading and a trailing run of whitespace, and that slice has no whitespace at either end |
| Text.Split | python/CyberArkDiscoveredAccounts/__init__.py:60 | `split(',')` gives at least one piece; no piece holds the separator; the pieces joined back with the separator are the original text |
| Text.SplitJoin | python/CyberArkDiscoveredAccounts/__init__.py:99 | splitting undoes joining when no part holds the separator |
| Text.RereadCommaSpaceJoin | python/CyberArkDiscoveredAccounts/__init__.py:67 | text joined with `", "` and re-read (split on `,`, each piece stripped) gives the parts back when they hold no comma and no surrounding whitespace |
| Accounts.AllowedAdminGroupsClean | python/CyberArkDiscoveredAccounts/__init__.py:11 | the six allowlisted names are distinct, non-empty, comma-free and without surrounding whitespace |
| Accounts.GroupTokens | python/CyberArkDiscoveredAccounts/__init__.py:60 | a missing `osGroups` reads as `""`; the tokens joined with `,` rebuild the field |
| Accounts.AdminTokens | python/CyberArkDiscoveredAccounts/__init__.py:66 | the kept names are allowlisted, and there are no more of them than tokens |
| Accounts.AdminTokensMembers | python/CyberArkDiscoveredAccounts/__init__.py:66 | a name is kept if and only if it is allowlisted and some token strips to it |
| Accounts.AdminTokensAppend | python/CyberArkDiscoveredAccounts/__init__.py:66 | the filter keeps the original order: filtering a concatenation concatenates the filtered halves |
| Accounts.AdminIffTokens | python/CyberArkDiscoveredAccounts/__init__.py:62-66 | the `any(...)` test of line 62 holds if and only if the list of line 66 is non-empty |
| Accounts.NewAccountReport | python/CyberArkDiscoveredAccounts/__init__.py:59-68 | a new account is reported if and only if its dependency count is missing or nonzero, or some stripped token is allowlisted; only `osGroups` may change; a non-admin account is reported unchanged; an admin account gets `osGroups` set to exactly its stripped allowlisted tokens joined by `", "` |
| Accounts.NewAccountGroupsReread | python/CyberArkDiscoveredAccounts/__init__.py:65-67 | the rewritten `osGroups` of an admin account, re-read, is exactly its stripped allowlisted tokens in order with duplicates kept, so every output token is allowlisted |
| Accounts.AddedAdminGroups | python/CyberArkDiscoveredAccounts/__init__.py:71-73 | with both `osGroups` fields split on `,` into sets (a missing field reads as `""`), a group is added if and only if it is allowlisted, a current token and not a previous token, with no trimming |
| Accounts.InOrder | python/CyberArkDiscoveredAccounts/__init__.py:90 | the listed groups are exactly the members of the given set that the order lists, without repeats when the order lists each name once |
| Accounts.NotIn | python/CyberArkDiscoveredAccounts/__init__.py:83 | no more dependencies are kept than the current list holds |
| Accounts.NotInCounts | python/CyberArkDiscoveredAccounts/__init__.py:83 | every current dependency absent from the previous list is kept as often as it occurs; every one present is dropped |
| Accounts.NotInAppend | python/CyberArkDiscoveredAccounts/__init__.py:83 | the filter keeps the current order: filtering a concatenation concatenates the filtered halves |
| Accounts.NotInCovered | python/CyberArkDiscoveredAccounts/__init__.py:83 | nothing is kept when every current dependency is in the previous list |
| Accounts.NotInSelf | python/CyberArkDiscoveredAccounts/__init__.py:83 | no dependency is new against its own list |
| Accounts.AddedDependencies | python/CyberArkDiscoveredAccounts/__init__.py:74-83 | there are three cases: none when the current count is 0; all current dependencies when the previous count is 0, or a KeyError when the key is missing (line 80); otherwise exactly `NotIn` of the current against the previous list (order and multiplicity by NotInCounts and NotInAppend) |
| Accounts.OldAccountReport | python/CyberArkDiscoveredAccounts/__init__.py:70-91 | the function fails exactly when the dependency delta fails, and then only with the `dependencies` KeyError |
| Accounts.OldAccountReportDeltas | python/CyberArkDiscoveredAccounts/__init__.py:85-91 | a record is emitted if and only if some dependency or admin group was added; dependencies and their count are replaced only when some were added; when groups were added, `osGroups` is those groups joined by `", "`, re-reads to exactly the added set, and has no repeats for an allowlist without repeats; otherwise it is kept; other fields are kept |
| Accounts.OldAccountUnchanged | python/CyberArkDiscoveredAccounts/__init__.py:70-91 | identical previous and current records produce no report and no error |
| AccountExamples.SampleNames | python/CyberArkDiscoveredAccounts/__init__.py:11 | `Administrators` is allowlisted and clean; `Users` and `Domain Users` are not allowlisted and satisfy the premises of the lemmas below |
| AccountExamples.AddedGroupWithoutSpace | python/CyberArkDiscoveredAccounts/__init__.py:71-73 | `other + "," + admin` against `other` adds exactly `{admin}` |
| AccountExamples.AddedGroupWithSpace | python/CyberArkDiscoveredAccounts/__init__.py:71-73 | `other + ", " + admin` against `other` adds nothing, for any allowlist of clean names |
| AccountExamples.SecondTokenAdmin | python/CyberArkDiscoveredAccounts/__init__.py:62-66 | of two tokens where only the second strips to an allowlisted name, that name alone is kept |
| AccountExamples.NewAccountTrimsTokens | python/CyberArkDiscoveredAccounts/__init__.py:59-68 | a new account with `osGroups` `other + ", " + admin` is reported with `osGroups` rewritten to `admin` |
| AccountExamples.NewAccountWithNothing | python/CyberArkDiscoveredAccounts/__init__.py:59-68 | a new account with empty `osGroups` and a dependency count of 0 is not reported |
| AccountExamples.DependenciesFromNone | python/CyberArkDiscoveredAccounts/__init__.py:79-80 | with unchanged groups and a previous count of 0, both current dependencies are reported with a count of 2 |
| AccountExamples.OnlyLastIsNew | python/CyberArkDiscoveredAccounts/__init__.py:83 | of `[x, y, z]` against `[x, y]` with `z` distinct, only `[z]` is new |
| AccountExamples.DependenciesOneAdded | python/CyberArkDiscoveredAccounts/__init__.py:81-88 | one added dependency gives a report with that dependency and a count of 1 |
| AccountExamples.AddedGroupReported | python/CyberArkDiscoveredAccounts/__init__.py:70-91 | a known account without dependencies whose groups go from `other` to `other,admin` is reported with `osGroups` exactly `admin` and every other field kept |
| Paging.LastPageIndex | python/CyberArkDiscoveredAccounts/__init__.py:23 | `floor(count / 1000)` is the page index whose range of 1000 holds `count` |
| Paging.PageIdsMembers | python/CyberArkDiscoveredAccounts/__init__.py:31-36 | an id is collected if and only if one of the requested pages lists it |
| Paging.PagesCoverCount | python/CyberArkDiscoveredAccounts/__init__.py:23-36 | the walk requests every page that can hold one of `count` records; it requests one extra page exactly when `count` is a multiple of 1000, so 1000 records take two requests |
| Paging.CurrentAccountIds | python/CyberArkDiscoveredAccounts/__init__.py:27-38 | `while current_offset <= offset` makes `offset + 1` requests (none for a negative offset), at offsets `0, 1000, …`; the id set is the union of the ids of the requested pages |
| IdList.DecodeEncode | python/CyberArkDiscoveredAccounts/__init__.py:99-112 | reading back the written list gives the set of ids, for non-empty ids without newlines or surrounding whitespace |
| IdList.BlankLineReadsAsEmptyId | python/CyberArkDiscoveredAccounts/__init__.py:102 | a line of only whitespace is not dropped: it is read as the empty id |
| Discovery.NewIds | python/CyberArkDiscoveredAccounts/__init__.py:166-173 | the new ids are `current − old`, and there are none unless both the old id set and the old details are non-empty |
| Discovery.NewOrOld | python/CyberArkDiscoveredAccounts/__init__.py:50-53 | with history, each current id is either new or old, never both |
| Discovery.WalkFailureStops | python/CyberArkDiscoveredAccounts/__init__.py:42-57 | an exception ends the loop: later ids change nothing |
| Discovery.WalkKeepsFetchedRecords | python/CyberArkDiscoveredAccounts/__init__.py:44-47 | after a successful loop every id was fetched with status 200, and its record is stored as received, unmodified by the diff |
| Discovery.WalkErrors | python/CyberArkDiscoveredAccounts/__init__.py:40-91 | a failed loop reports one of three errors: the non-200 status of a listed id; a KeyError for an old id without stored details; or the `dependencies` KeyError. The last two occur only with history |
| Discovery.WalkWithoutHistory | python/CyberArkDiscoveredAccounts/__init__.py:48 | without history the loop succeeds if and only if every fetch answers 200, and it reports nothing |
| Discovery.WalkNewIdsOnly | python/CyberArkDiscoveredAccounts/__init__.py:50-53 | new ids are never processed as old accounts |
| Discovery.WalkUnchangedSnapshot | python/CyberArkDiscoveredAccounts/__init__.py:40-91 | against an unchanged snapshot the loop succeeds and reports nothing |
| Discovery.DiffRun.constructor | python/CyberArkDiscoveredAccounts/__init__.py:176-182 | the three accumulators start empty |
| Discovery.DiffRun.ProcessNewAccount | python/CyberArkDiscoveredAccounts/__init__.py:59-68 | appends exactly the one record `NewAccountReport` gives, or nothing when it gives none, and changes nothing else |
| Discovery.DiffRun.ProcessOldAccount | python/CyberArkDiscoveredAccounts/__init__.py:70-91 | appends exactly the one record `OldAccountReport` gives (nothing when it gives none), or returns its KeyError with the accumulators untouched |
| Discovery.DiffRun.GetAccountDetails | python/CyberArkDiscoveredAccounts/__init__.py:40-57 | on success the accumulators hold exactly what `Walk` computes from their old contents; on an exception the method returns the error `Walk` reports |
| Discovery.Enumerate | python/CyberArkDiscoveredAccounts/__init__.py:42 | iterating a set visits every member exactly once |
| Discovery.Discover | python/CyberArkDiscoveredAccounts/__init__.py:144-199 | covers the whole run: the page requests; an enumeration listing each current id once; the stored details, reports and id list are exactly what the classification loop `Walk` computes over that enumeration from empty accumulators with the new ids of `main` (an old-id blob that is missing or unreadable reads as no ids), and the run fails with the loop's error otherwise; stored details keyed by exactly the listed ids with the fetched bodies; a stored id list that reads back as the id set when every id is non-empty, on one line and without surrounding whitespace; empty reports without history; success without history when every fetch answers 200; empty reports against an unchanged snapshot |

## Left out

- HTTP, authentication, blob storage, JSON encoding and decoding, logging, and environment variables are not modelled. They become parameters instead:
  - the account count;
  - `fetchPage`, a listing page by offset;
  - `fetch`, a detail response by id;
  - the stored id-list text, with `None` when that blob is missing or unreadable;
  - the stored details.
  The artifacts the run would upload are returned.
- `logon_to_cyberark` and the blob read/write wrappers are not modelled beyond the id-list encoding and decoding. The other two functions of the repository, `CyberArkSafeMemberAccess` and `IntuneDiscoveredAppsRawData`, are not part of this model; they are I/O glue.
- Python set iteration order is unspecified. The model handles it in three places:
  - `Enumerate` picks the order of the classification loop and of the written id list arbitrarily.
  - Added admin groups are joined in allowlist order, which is one of the possible orders.
  - Properties that depend on order are stated up to that choice: as sets, or through the re-read set.
- Discovery.DiffRun.GetAccountDetails: after an exception, the method's contract does not state the accumulators' contents. In the source, the partial contents are lost with the exception anyway, since nothing is stored.
- JSON values of unexpected types are not modelled:
  - a non-string `osGroups`;
  - a non-integer count, including Python's `False == 0`;
  - a non-list `dependencies`.
  Dependencies and the other record fields are string maps compared by value.
- UTF-8 decoding of the id-list blob is not modelled. The text is already decoded.
- The float division in `count / 1000` is modelled as exact floor division. Precision loss for counts beyond 2^53 is not modelled, and neither is a missing `count` key.
- The model follows the code where it raises instead of skipping, and where it does not trim:
  - An old id with no stored details raises a KeyError (line 53). It is not skipped.
  - A non-200 detail fetch raises (line 57). It is not skipped.
  - A previous count of 0 with the current `dependencies` key missing raises a KeyError (line 80).
  - Neither side of the old-path group difference is trimmed (line 73).
  - A whitespace-only line of the id list reads as the empty id (line 102), because the emptiness test comes before the strip.

=== FILE: account_examples.dfy ===
/** Edge cases of the differ (spaced group lists, missing counts, dependency deltas), stated for
  * every group name and allowlist of the shape of the sample names (`"Users"`, `"Domain Users"`, `"Administrators"`
  * and the source's allowlist, by SampleNames). */
module AccountExamples {
  import opened Wrappers
  import opened Text
  import opened Accounts

  /** The sample names `Users`, `Domain Users` and `Administrators` meet the premises of the lemmas below. */
  lemma SampleNames()
    ensures "Administrators" in AllowedAdminGroups && Clean("Administrators")
    ensures "Users" !in AllowedAdminGroups && ',' !in "Users"
    ensures "Domain Users" !in AllowedAdminGroups && ',' !in "Domain Users" && NoSurroundingSpace("Domain Users")
  {
  }

  /** A group appended without a space (`"Users,Administrators"` against `"Users"`) is reported. */
  lemma AddedGroupWithoutSpace(current: Account, previous: Account, allowed: seq<string>, other: string, admin: string)
    requires admin in allowed && ',' !in other && ',' !in admin && admin != other
    requires current.osGroups == Some(other + "," + admin) && previous.osGroups == Some(other)
    ensures AddedAdminGroups(current, previous, allowed) == {admin}
  {
    SplitTwo(other, admin, ',');
    SplitWithoutSeparator(other, ',');
    assert GroupTokens(current) == [other, admin];
    assert GroupTokens(previous) == [other];
  }

  /** The same change written with a space (`"Users, Administrators"`) is never reported by the
    * old-account path, whatever the clean allowlist: that token keeps its leading space. */
  lemma AddedGroupWithSpace(current: Account, previous: Account, allowed: seq<string>, other: string, admin: string)
    requires AllClean(allowed) && ',' !in other && ',' !in admin
    requires current.osGroups == Some(other + ", " + admin) && previous.osGroups == Some(other)
    ensures AddedAdminGroups(current, previous, allowed) == {}
  {
    assert other + ", " + admin == other + [','] + (" " + admin);
    SplitTwo(other, " " + admin, ',');
    assert GroupTokens(current) == [other, " " + admin];
    assert GroupTokens(previous) == [other];
  }

  /** Of two tokens, only the second trims to an allowlisted name. */
  lemma SecondTokenAdmin(x: string, y: string, allowed: seq<string>)
    requires Strip(x) !in allowed && Strip(y) in allowed
    ensures AdminTokens([x, y], allowed) == [Strip(y)]
    ensures IsAdmin([x, y], allowed)
  {
    assert [x, y][1..] == [y];
    assert [y][1..] == [];
    assert Strip([x, y][1]) in allowed;
  }

  /** The new-account path trims: `"Domain Users, Administrators"` is reported with `osGroups`
    * rewritten to `"Administrators"`. */
  lemma NewAccountTrimsTokens(a: Account, allowed: seq<string>, other: string, admin: string)
    requires admin in allowed && Clean(admin)
    requires ',' !in other && NoSurroundingSpace(other) && other !in allowed
    requires a.osGroups == Some(other + ", " + admin)
    ensures NewAccountReport(a, allowed) == Some(a.(osGroups := Some(admin)))
  {
    assert other + ", " + admin == other + [','] + (" " + admin);
    SplitTwo(other, " " + admin, ',');
    StripLeadingSpace(admin);
    StripNoSurroundingSpace(admin);
    StripNoSurroundingSpace(other);
    SecondTokenAdmin(other, " " + admin, allowed);
  }

  /** A new account with empty groups and no dependencies is not reported. */
  lemma NewAccountWithNothing(a: Account)
    requires a.osGroups == Some("") && a.numberOfDependencies == Some(0)
    ensures NewAccountReport(a, AllowedAdminGroups) == None
  {
    assert GroupTokens(a) == [""];
    assert Strip("") == "";
    assert "" !in AllowedAdminGroups;
  }

  /** A known account whose count goes from 0 to 2 reports both current dependencies, count 2. */
  lemma DependenciesFromNone(current: Account, previous: Account, x: Dependency, y: Dependency, allowed: seq<string>)
    requires previous.numberOfDependencies == Some(0)
    requires current.numberOfDependencies == Some(2) && current.dependencies == Some([x, y])
    requires current.osGroups == previous.osGroups
    ensures OldAccountReport(current, previous, allowed) ==
      Success(Some(current.(dependencies := Some([x, y]), numberOfDependencies := Some(2))))
  {
    assert AddedAdminGroups(current, previous, allowed) == {};
  }

  /** Against `[x, y]`, only `z` of `[x, y, z]` is new. */
  lemma OnlyLastIsNew(x: Dependency, y: Dependency, z: Dependency)
    requires z != x && z != y
    ensures NotIn([x, y, z], [x, y]) == [z]
  {
    var prev := [x, y];
    assert x in prev && y in prev && z !in prev;
    assert NotIn([z], prev) == [z] by {
      assert [z][1..] == [];
    }
    assert NotIn([y, z], prev) == NotIn([z], prev) by {
      assert [y, z][1..] == [z];
    }
    assert NotIn([x, y, z], prev) == NotIn([y, z], prev) by {
      assert [x, y, z][1..] == [y, z];
    }
  }

  /** Previous dependencies `[x, y]`, current `[x, y, z]`: only `[z]` is reported, count 1. */
  lemma DependenciesOneAdded(current: Account, previous: Account, x: Dependency, y: Dependency, z: Dependency, allowed: seq<string>)
    requires z != x && z != y
    requires previous.numberOfDependencies == Some(2) && previous.dependencies == Some([x, y])
    requires current.numberOfDependencies == Some(3) && current.dependencies == Some([x, y, z])
    requires current.osGroups == previous.osGroups
    ensures OldAccountReport(current, previous, allowed) ==
      Success(Some(current.(dependencies := Some([z]), numberOfDependencies := Some(1))))
  {
    assert AddedAdminGroups(current, previous, allowed) == {};
    OnlyLastIsNew(x, y, z);
    assert AddedDependencies(current, previous) == Success([z]);
  }

  /** A known account gaining one allowlisted group (`"Users"` to `"Users,Administrators"`), with
    * no dependencies, is reported with `osGroups` set to that one name. */
  lemma AddedGroupReported(current: Account, previous: Account, allowed: seq<string>, other: string, admin: string)
    requires AllClean(allowed) && forall i, j :: 0 <= i < j < |allowed| ==> allowed[i] != allowed[j]
    requires admin in allowed && ',' !in other && admin != other
    requires current.osGroups == Some(other + "," + admin) && previous.osGroups == Some(other)
    requires current.numberOfDependencies == Some(0)
    ensures OldAccountReport(current, previous, allowed) == Success(Some(current.(osGroups := Some(admin))))
  {
    var k :| 0 <= k < |allowed| && allowed[k] == admin;
    assert Clean(allowed[k]);
    AddedGroupWithoutSpace(current, previous, allowed, other, admin);
    OldAccountReportDeltas(current, previous, allowed);
    var names := InOrder(allowed, {admin});
    assert admin in names;
    forall i | 0 <= i < |names|
      ensures names[i] == admin
    {
      assert names[i] in names;
    }
    assert |names| == 1;
    assert names == [admin];
  }
}

=== FILE: accounts.dfy ===
/** The per-account part of the discovered-accounts differ: what is reported for an account seen
  * for the first time (`process_new_accounts`) and for an account that was already known
  * (`process_old_account`). The allowlist of administrators-group names is a parameter; the
  * driver passes `AllowedAdminGroups`. */
module Accounts {
  import opened Wrappers
  import opened Text

  /** One dependency descriptor; two descriptors are the same when all their attributes agree. */
  datatype Dependency = Dependency(attributes: map<string, string>)

  /** A discovered-account record as returned by the vendor API. `None` is a missing key. */
  datatype Account = Account(
    osGroups: Option<string>,
    numberOfDependencies: Option<int>,
    dependencies: Option<seq<Dependency>>,
    otherFields: map<string, string>)

  /** The exceptions the differ lets escape. */
  datatype Error =
    | HttpError(id: string, status: int)  // a detail fetch answered with a status other than 200
    | KeyError(key: string)               // a dictionary was indexed with a key it does not hold

  /** The localized names of the built-in administrators group, in one fixed order (the source
    * holds them in a set; the order is used wherever the source joins a set of them). */
  const AllowedAdminGroups: seq<string> :=
    ["Administrators", "Administrateurs", "Administradores", "Gli amministratori", "Beheerders", "Administratorzy"]

  /** Non-empty, without commas and without surrounding whitespace: a name that survives being
    * joined with ", " and re-read by splitting on commas and trimming. */
  predicate Clean(g: string) {
    g != [] && ',' !in g && NoSurroundingSpace(g)
  }

  predicate AllClean(allowed: seq<string>) {
    forall i :: 0 <= i < |allowed| ==> Clean(allowed[i])
  }

  /** Every allowlisted name is clean, and none is listed twice. */
  lemma AllowedAdminGroupsClean()
    ensures AllClean(AllowedAdminGroups)
    ensures forall i, j :: 0 <= i < j < |AllowedAdminGroups| ==> AllowedAdminGroups[i] != AllowedAdminGroups[j]
  {
    assert Clean("Administrators");
    assert Clean("Administrateurs");
    assert Clean("Administradores");
    assert Clean("Gli amministratori");
    assert Clean("Beheerders");
    assert Clean("Administratorzy");
  }

  /** `osGroups` split on commas, untrimmed; a missing field reads as the empty string. */
  function GroupTokens(a: Account): (r: seq<string>)
    ensures |r| >= 1 && Join(r, ",") == a.osGroups.GetOr("")
  {
    Split(a.osGroups.GetOr(""), ',')
  }

  /** The dependency list; a missing field reads as the empty list. */
  function DependencyList(a: Account): seq<Dependency> {
    a.dependencies.GetOr([])
  }

  /** The dependency count is missing or nonzero (Python's `get('numberOfDependencies') != 0`). */
  predicate HasDependencies(a: Account) {
    a.numberOfDependencies != Some(0)
  }

  /** Some token, once trimmed, names an administrators group. */
  predicate IsAdmin(tokens: seq<string>, allowed: seq<string>) {
    exists i :: 0 <= i < |tokens| && Strip(tokens[i]) in allowed
  }

  /** The trimmed tokens that name an administrators group, in their original order, duplicates kept. */
  function AdminTokens(tokens: seq<string>, allowed: seq<string>): (r: seq<string>)
    ensures |r| <= |tokens|
    ensures forall i :: 0 <= i < |r| ==> r[i] in allowed
  {
    if tokens == [] then []
    else (if Strip(tokens[0]) in allowed then [Strip(tokens[0])] else []) + AdminTokens(tokens[1..], allowed)
  }

  /** A name is reported exactly when it is allowlisted and some token trims to it. */
  lemma {:induction false} AdminTokensMembers(tokens: seq<string>, allowed: seq<string>, g: string)
    ensures g in AdminTokens(tokens, allowed) <==>
      g in allowed && exists i :: 0 <= i < |tokens| && Strip(tokens[i]) == g
    decreases |tokens|
  {
    if tokens != [] {
      AdminTokensMembers(tokens[1..], allowed, g);
      if exists i :: 0 <= i < |tokens| && Strip(tokens[i]) == g {
        var i :| 0 <= i < |tokens| && Strip(tokens[i]) == g;
        if i > 0 {
          assert Strip(tokens[1..][i - 1]) == g;
        }
      }
      if exists i :: 0 <= i < |tokens[1..]| && Strip(tokens[1..][i]) == g {
        var i :| 0 <= i < |tokens[1..]| && Strip(tokens[1..][i]) == g;
        assert Strip(tokens[i + 1]) == g;
      }
    }
  }

  /** AdminTokens keeps order: filtering a concatenation concatenates the filtered halves. */
  lemma {:induction false} AdminTokensAppend(a: seq<string>, b: seq<string>, allowed: seq<string>)
    ensures AdminTokens(a + b, allowed) == AdminTokens(a, allowed) + AdminTokens(b, allowed)
    decreases |a|
  {
    if a != [] {
      assert (a + b)[1..] == a[1..] + b;
      AdminTokensAppend(a[1..], b, allowed);
    } else {
      assert a + b == b;
    }
  }

  /** An account is an admin exactly when it has allowlisted tokens to report. */
  lemma AdminIffTokens(tokens: seq<string>, allowed: seq<string>)
    ensures IsAdmin(tokens, allowed) <==> AdminTokens(tokens, allowed) != []
  {
    if IsAdmin(tokens, allowed) {
      var i :| 0 <= i < |tokens| && Strip(tokens[i]) in allowed;
      AdminTokensMembers(tokens, allowed, Strip(tokens[i]));
    } else {
      var r := AdminTokens(tokens, allowed);
      if r != [] {
        AdminTokensMembers(tokens, allowed, r[0]);
      }
    }
  }

  /** What `process_new_accounts` appends for a new account, or None when it appends nothing:
    * an admin account gets `osGroups` rewritten to its allowlisted tokens joined by ", ". */
  function NewAccountReport(a: Account, allowed: seq<string>): (r: Option<Account>)
    ensures r.Some? <==> HasDependencies(a) || IsAdmin(GroupTokens(a), allowed)
    ensures r.Some? ==> r.value.(osGroups := a.osGroups) == a
    ensures r.Some? && !IsAdmin(GroupTokens(a), allowed) ==> r.value == a
    ensures r.Some? && IsAdmin(GroupTokens(a), allowed) ==>
      r.value.osGroups == Some(Join(AdminTokens(GroupTokens(a), allowed), ", "))
  {
    var tokens := GroupTokens(a);
    var isAdmin := IsAdmin(tokens, allowed);
    if HasDependencies(a) || isAdmin then
      if isAdmin then
        Some(a.(osGroups := Some(Join(AdminTokens(tokens, allowed), ", "))))
      else
        Some(a)
    else
      None
  }

  /** The rewritten `osGroups` of a reported admin account, re-read (split on commas, each token
    * trimmed), gives back exactly its allowlisted tokens in order; so every token is allowlisted. */
  lemma NewAccountGroupsReread(a: Account, allowed: seq<string>)
    requires AllClean(allowed)
    requires IsAdmin(GroupTokens(a), allowed)
    ensures NewAccountReport(a, allowed).Some?
    ensures var text := NewAccountReport(a, allowed).value.osGroups.value;
      StripAll(Split(text, ',')) == AdminTokens(GroupTokens(a), allowed) &&
      forall i :: 0 <= i < |Split(text, ',')| ==> Strip(Split(text, ',')[i]) in allowed
  {
    var admin := AdminTokens(GroupTokens(a), allowed);
    AdminIffTokens(GroupTokens(a), allowed);
    forall i | 0 <= i < |admin|
      ensures ',' !in admin[i] && NoSurroundingSpace(admin[i])
    {
      var k :| 0 <= k < |allowed| && allowed[k] == admin[i];
    }
    RereadCommaSpaceJoin(admin);
  }

  /** The tokens of `osGroups` as a set; a missing field reads as the empty string. */
  function TokenSet(a: Account): set<string> {
    set g | g in GroupTokens(a)
  }

  /** `(set(current tokens) - set(previous tokens)) & ALLOWED_ADMIN_GROUPS`: Python's `-` binds
    * tighter than `&`, and the tokens are not trimmed. */
  function AddedAdminGroups(current: Account, previous: Account, allowed: seq<string>): (r: set<string>)
    ensures forall g :: g in r <==> g in allowed && g in GroupTokens(current) && g !in GroupTokens(previous)
  {
    (TokenSet(current) - TokenSet(previous)) * (set g | g in allowed)
  }

  /** The elements of `order` that are in `groups`, in order. */
  function InOrder(order: seq<string>, groups: set<string>): (r: seq<string>)
    ensures forall g :: g in r <==> g in order && g in groups
    ensures (forall i, j :: 0 <= i < j < |order| ==> order[i] != order[j]) ==>
      forall i, j :: 0 <= i < j < |r| ==> r[i] != r[j]
  {
    if order == [] then []
    else
      var rest := InOrder(order[1..], groups);
      assert forall g :: g in order <==> g == order[0] || g in order[1..];
      (if order[0] in groups then [order[0]] else []) + rest
  }

  /** The current dependencies not found (by value) in the previous list, order kept. */
  function NotIn(current: seq<Dependency>, previous: seq<Dependency>): (r: seq<Dependency>)
    ensures |r| <= |current|
  {
    if current == [] then []
    else (if current[0] in previous then [] else [current[0]]) + NotIn(current[1..], previous)
  }

  /** Every current dependency absent from the previous list is kept as often as it occurs;
    * every one present is dropped. */
  lemma {:induction false} NotInCounts(current: seq<Dependency>, previous: seq<Dependency>)
    ensures forall d :: multiset(NotIn(current, previous))[d] ==
                        (if d in previous then 0 else multiset(current)[d])
    decreases |current|
  {
    if current != [] {
      NotInCounts(current[1..], previous);
      assert current == [current[0]] + current[1..];
    }
  }

  /** NotIn keeps order: filtering a concatenation concatenates the filtered halves. */
  lemma {:induction false} NotInAppend(a: seq<Dependency>, b: seq<Dependency>, previous: seq<Dependency>)
    ensures NotIn(a + b, previous) == NotIn(a, previous) + NotIn(b, previous)
    decreases |a|
  {
    if a != [] {
      var c := a + b;
      var head := if a[0] in previous then [] else [a[0]];
      assert c[0] == a[0] && c[1..] == a[1..] + b;
      NotInAppend(a[1..], b, previous);
      assert NotIn(c, previous) == head + NotIn(c[1..], previous);
      assert NotIn(a, previous) == head + NotIn(a[1..], previous);
    } else {
      assert a + b == b;
    }
  }

  /** Nothing is new when every dependency was already listed. */
  lemma {:induction false} NotInCovered(current: seq<Dependency>, previous: seq<Dependency>)
    requires forall i :: 0 <= i < |current| ==> current[i] in previous
    ensures NotIn(current, previous) == []
    decreases |current|
  {
    if current != [] {
      NotInCovered(current[1..], previous);
    }
  }

  /** Nothing of a list is new against itself. */
  lemma NotInSelf(ds: seq<Dependency>)
    ensures NotIn(ds, ds) == []
  {
    NotInCovered(ds, ds);
  }

  /** The added dependencies of lines 74-83, or the KeyError of line 80 when the current record
    * has a nonzero count, the previous count is 0, and the `dependencies` key is missing. */
  function AddedDependencies(current: Account, previous: Account): (r: Result<seq<Dependency>, Error>)
    ensures !HasDependencies(current) ==> r == Success([])
    ensures HasDependencies(current) && previous.numberOfDependencies == Some(0) ==>
      if current.dependencies.Some? then r == Success(current.dependencies.value)
      else r == Failure(KeyError("dependencies"))
    ensures HasDependencies(current) && HasDependencies(previous) ==>
      r == Success(NotIn(DependencyList(current), DependencyList(previous)))
  {
    if HasDependencies(current) then
      if previous.numberOfDependencies == Some(0) then
        match current.dependencies
        case None => Failure(KeyError("dependencies"))
        case Some(deps) => Success(deps)
      else
        Success(NotIn(DependencyList(current), DependencyList(previous)))
    else
      Success([])
  }

  /** What `process_old_account` appends for a known account (None when nothing), or the error it raises. */
  function OldAccountReport(current: Account, previous: Account, allowed: seq<string>): (r: Result<Option<Account>, Error>)
    ensures r.Failure? <==> AddedDependencies(current, previous).Failure?
    ensures r.Failure? ==> r.error == KeyError("dependencies")
  {
    var deps :- AddedDependencies(current, previous);
    var groups := AddedAdminGroups(current, previous, allowed);
    if deps != [] || groups != {} then
      var withDeps :=
        if deps != [] then current.(dependencies := Some(deps), numberOfDependencies := Some(|deps|))
        else current;
      if groups != {} then
        Success(Some(withDeps.(osGroups := Some(Join(InOrder(allowed, groups), ", ")))))
      else
        Success(Some(withDeps))
    else
      Success(None)
  }

  /** The record `process_old_account` emits carries only the deltas: the added dependencies with
    * their count, the added admin groups joined by ", " (re-read by splitting on commas and
    * trimming, exactly the added set); every field neither delta touches keeps its current value.
    * It emits one exactly when some dependency or some admin group was added. */
  lemma OldAccountReportDeltas(current: Account, previous: Account, allowed: seq<string>)
    requires AllClean(allowed)
    requires AddedDependencies(current, previous).Success?
    ensures OldAccountReport(current, previous, allowed).Success?
    ensures
      var deps := AddedDependencies(current, previous).value;
      var groups := AddedAdminGroups(current, previous, allowed);
      var r := OldAccountReport(current, previous, allowed).value;
      (r.Some? <==> deps != [] || groups != {}) &&
      (r.Some? ==>
        r.value.otherFields == current.otherFields &&
        (deps == [] ==> r.value.dependencies == current.dependencies &&
                        r.value.numberOfDependencies == current.numberOfDependencies) &&
        (deps != [] ==> r.value.dependencies == Some(deps) && r.value.numberOfDependencies == Some(|deps|)) &&
        (groups == {} ==> r.value.osGroups == current.osGroups) &&
        (groups != {} ==>
          r.value.osGroups == Some(Join(InOrder(allowed, groups), ", ")) &&
          (set g | g in StripAll(Split(r.value.osGroups.value, ','))) == groups &&
          ((forall i, j :: 0 <= i < j < |allowed| ==> allowed[i] != allowed[j]) ==>
             var names := StripAll(Split(r.value.osGroups.value, ','));
             forall i, j :: 0 <= i < j < |names| ==> names[i] != names[j])))
  {
    var groups := AddedAdminGroups(current, previous, allowed);
    if groups != {} {
      var names := InOrder(allowed, groups);
      assert names != [] by {
        var g :| g in groups;
        assert g in names;
      }
      forall i | 0 <= i < |names|
        ensures ',' !in names[i] && NoSurroundingSpace(names[i])
      {
        assert names[i] in names;
        var k :| 0 <= k < |allowed| && allowed[k] == names[i];
      }
      RereadCommaSpaceJoin(names);
    }
  }

  /** An unchanged record produces no report. */
  lemma OldAccountUnchanged(a: Account, allowed: seq<string>)
    ensures OldAccountReport(a, a, allowed) == Success(None)
  {
    NotInSelf(DependencyList(a));
    assert AddedAdminGroups(a, a, allowed) == {};
  }
}

=== FILE: discovery.dfy ===
/** The run of the discovered-accounts function: the new-id computation, the classification loop
  * `get_account_details` with its accumulators, and the whole run from the account count to the
  * four artifacts it stores. The HTTP calls are the parameters `fetchPage` (a listing page, by
  * offset) and `fetch` (a detail record, by id); the blobs read at the start are parameters and the
  * blobs written at the end are the returned artifacts. */
module Discovery {
  import opened Wrappers
  import opened Text
  import opened Accounts
  import opened Paging
  import opened IdList

  /** The answer to one detail request. */
  datatype Response = Response(status: int, body: Account)

  /** What the classification loop accumulates: every fetched record by id, the new-account
    * reports, and the updated-old-account reports. */
  datatype Reports = Reports(details: map<string, Account>, newAccounts: seq<Account>, updatedAccounts: seq<Account>)

  /** The inputs the classification loop reads. */
  datatype Context = Context(
    oldIds: set<string>,
    oldDetails: map<string, Account>,
    newIds: set<string>,
    fetch: string -> Response)

  /** Both parts of the previous snapshot are non-empty (Python's `old_account_id_list and old_account_details`). */
  predicate HasHistory(oldIds: set<string>, oldDetails: map<string, Account>) {
    oldIds != {} && oldDetails != map[]
  }

  /** The ids `main` treats as new: current ids not seen before, and none at all without history. */
  function NewIds(current: set<string>, oldIds: set<string>, oldDetails: map<string, Account>): (r: set<string>)
    ensures forall id :: id in r <==> HasHistory(oldIds, oldDetails) && id in current && id !in oldIds
  {
    if HasHistory(oldIds, oldDetails) then current - oldIds else {}
  }

  /** With history, every current id takes exactly one path: new, or old. */
  lemma NewOrOld(current: set<string>, oldIds: set<string>, oldDetails: map<string, Account>, id: string)
    requires HasHistory(oldIds, oldDetails) && id in current
    ensures (id in NewIds(current, oldIds, oldDetails)) != (id in oldIds)
  {
  }

  /** An optional report as the list of what gets appended. */
  function Appended(report: Option<Account>): seq<Account> {
    match report
    case None => []
    case Some(a) => [a]
  }

  /** One iteration of the loop in `get_account_details`, for one id. */
  function Step(acc: Reports, id: string, ctx: Context): Result<Reports, Error> {
    var response := ctx.fetch(id);
    if response.status != 200 then
      Failure(HttpError(id, response.status))
    else
      var acc := acc.(details := acc.details[id := response.body]);
      if !HasHistory(ctx.oldIds, ctx.oldDetails) then
        Success(acc)
      else if id in ctx.newIds then
        Success(acc.(newAccounts := acc.newAccounts + Appended(NewAccountReport(response.body, AllowedAdminGroups))))
      else if id in ctx.oldIds then
        if id !in ctx.oldDetails then
          Failure(KeyError(id))
        else
          var report :- OldAccountReport(response.body, ctx.oldDetails[id], AllowedAdminGroups);
          Success(acc.(updatedAccounts := acc.updatedAccounts + Appended(report)))
      else
        Success(acc)
  }

  /** The loop over `ids` from the accumulators `start`, stopping at the first exception. */
  function Walk(start: Reports, ids: seq<string>, ctx: Context): Result<Reports, Error> {
    if ids == [] then
      Success(start)
    else
      var before :- Walk(start, ids[..|ids| - 1], ctx);
      Step(before, ids[|ids| - 1], ctx)
  }

  /** An exception ends the loop: the walk over a longer list fails the same way. */
  lemma {:induction false} WalkFailureStops(start: Reports, ids: seq<string>, k: nat, ctx: Context)
    requires k <= |ids| && Walk(start, ids[..k], ctx).Failure?
    ensures Walk(start, ids, ctx) == Walk(start, ids[..k], ctx)
    decreases |ids|
  {
    if k == |ids| {
      assert ids[..k] == ids;
    } else {
      var init := ids[..|ids| - 1];
      assert init[..k] == ids[..k];
      WalkFailureStops(start, init, k, ctx);
    }
  }

  /** A successful walk fetched every id with status 200 and stored each record exactly as received. */
  lemma {:induction false} WalkKeepsFetchedRecords(start: Reports, ids: seq<string>, ctx: Context)
    requires Walk(start, ids, ctx).Success?
    ensures var r := Walk(start, ids, ctx).value;
      r.details.Keys == start.details.Keys + (set id | id in ids) &&
      (forall id :: id in ids ==> ctx.fetch(id).status == 200 && r.details[id] == ctx.fetch(id).body) &&
      (forall id :: id in start.details && id !in ids ==> r.details[id] == start.details[id])
    decreases |ids|
  {
    if ids != [] {
      var init := ids[..|ids| - 1];
      WalkKeepsFetchedRecords(start, init, ctx);
      assert forall id :: id in ids <==> id in init || id == ids[|ids| - 1];
    }
  }

  /** What a failed walk reports: a non-200 status of a listed id, or a KeyError for an old id
    * without stored details, or for a missing `dependencies` key, both only with history. */
  lemma {:induction false} WalkErrors(start: Reports, ids: seq<string>, ctx: Context)
    requires Walk(start, ids, ctx).Failure?
    ensures var e := Walk(start, ids, ctx).error;
      (e.HttpError? ==> e.id in ids && e.status == ctx.fetch(e.id).status && e.status != 200) &&
      (e.KeyError? ==>
        HasHistory(ctx.oldIds, ctx.oldDetails) &&
        (e.key == "dependencies" ||
         (e.key in ids && e.key in ctx.oldIds && e.key !in ctx.newIds && e.key !in ctx.oldDetails)))
    decreases |ids|
  {
    var init := ids[..|ids| - 1];
    if Walk(start, init, ctx).Failure? {
      WalkErrors(start, init, ctx);
    }
  }

  /** Without history the loop only records details: it succeeds exactly when every fetch
    * answers 200, and reports nothing. */
  lemma {:induction false} WalkWithoutHistory(start: Reports, ids: seq<string>, ctx: Context)
    requires !HasHistory(ctx.oldIds, ctx.oldDetails)
    ensures Walk(start, ids, ctx).Success? <==> forall id :: id in ids ==> ctx.fetch(id).status == 200
    ensures Walk(start, ids, ctx).Success? ==>
      Walk(start, ids, ctx).value.newAccounts == start.newAccounts &&
      Walk(start, ids, ctx).value.updatedAccounts == start.updatedAccounts
    decreases |ids|
  {
    if ids != [] {
      var init := ids[..|ids| - 1];
      WalkWithoutHistory(start, init, ctx);
      assert forall id :: id in ids <==> id in init || id == ids[|ids| - 1];
    }
  }

  /** Ids that are all new are never processed as old accounts: the updated list stays as it was,
    * and the loop succeeds when every fetch answers 200. */
  lemma {:induction false} WalkNewIdsOnly(start: Reports, ids: seq<string>, ctx: Context)
    requires forall id :: id in ids ==> id in ctx.newIds && ctx.fetch(id).status == 200
    ensures Walk(start, ids, ctx).Success?
    ensures Walk(start, ids, ctx).value.updatedAccounts == start.updatedAccounts
    decreases |ids|
  {
    if ids != [] {
      WalkNewIdsOnly(start, ids[..|ids| - 1], ctx);
    }
  }

  /** Against an unchanged previous snapshot (every id known, stored, and fetched identical to its
    * stored record) the loop succeeds and reports nothing new and nothing updated. */
  lemma {:induction false} WalkUnchangedSnapshot(start: Reports, ids: seq<string>, ctx: Context)
    requires HasHistory(ctx.oldIds, ctx.oldDetails)
    requires forall id :: id in ids ==>
      ctx.fetch(id).status == 200 && id !in ctx.newIds && id in ctx.oldIds &&
      id in ctx.oldDetails && ctx.oldDetails[id] == ctx.fetch(id).body
    ensures Walk(start, ids, ctx).Success?
    ensures Walk(start, ids, ctx).value.newAccounts == start.newAccounts
    ensures Walk(start, ids, ctx).value.updatedAccounts == start.updatedAccounts
    decreases |ids|
  {
    if ids != [] {
      var id := ids[|ids| - 1];
      WalkUnchangedSnapshot(start, ids[..|ids| - 1], ctx);
      OldAccountUnchanged(ctx.fetch(id).body, AllowedAdminGroups);
    }
  }

  /** The caller-owned accumulators `get_account_details` fills in place. */
  class DiffRun {
    var currentAccountDetails: map<string, Account>
    var newAccountDetails: seq<Account>
    var updatedOldAccountDetails: seq<Account>

    function State(): Reports
      reads this
    {
      Reports(currentAccountDetails, newAccountDetails, updatedOldAccountDetails)
    }

    constructor ()
      ensures State() == Reports(map[], [], [])
    {
      currentAccountDetails := map[];
      newAccountDetails := [];
      updatedOldAccountDetails := [];
    }

    /** `process_new_accounts`: works on its own copy of the record and appends it when reported. */
    method ProcessNewAccount(account: Account)
      modifies this
      ensures State() == old(State()).(newAccounts := old(newAccountDetails) + Appended(NewAccountReport(account, AllowedAdminGroups)))
    {
      var current := account;
      var osGroups := Split(current.osGroups.GetOr(""), ',');
      var hasNewDependencies := current.numberOfDependencies != Some(0);
      var isAddedToAdminGroup := IsAdmin(osGroups, AllowedAdminGroups);
      if hasNewDependencies || isAddedToAdminGroup {
        if isAddedToAdminGroup {
          var adminGroups := AdminTokens(osGroups, AllowedAdminGroups);
          current := current.(osGroups := Some(Join(adminGroups, ", ")));
        }
        newAccountDetails := newAccountDetails + [current];
      }
    }

    /** `process_old_account`: appends the delta record, if any, or reports the KeyError of line 80
      * with the accumulators untouched. */
    method ProcessOldAccount(account: Account, previous: Account) returns (err: Option<Error>)
      modifies this
      ensures match OldAccountReport(account, previous, AllowedAdminGroups)
        case Failure(e) => err == Some(e) && State() == old(State())
        case Success(report) =>
          err == None &&
          State() == old(State()).(updatedAccounts := old(updatedOldAccountDetails) + Appended(report))
    {
      var currentOsGroups := TokenSet(account);
      var previousOsGroups := TokenSet(previous);
      var newOsGroups := (currentOsGroups - previousOsGroups) * (set g | g in AllowedAdminGroups);
      var newDependencies: seq<Dependency> := [];
      if account.numberOfDependencies != Some(0) {
        var currentDependencies := DependencyList(account);
        if previous.numberOfDependencies == Some(0) {
          if account.dependencies.None? {
            return Some(KeyError("dependencies"));
          }
          newDependencies := account.dependencies.value;
        } else {
          newDependencies := NotIn(currentDependencies, DependencyList(previous));
        }
      }
      if newDependencies != [] || newOsGroups != {} {
        var current := account;
        if newDependencies != [] {
          current := current.(dependencies := Some(newDependencies), numberOfDependencies := Some(|newDependencies|));
        }
        if newOsGroups != {} {
          current := current.(osGroups := Some(Join(InOrder(AllowedAdminGroups, newOsGroups), ", ")));
        }
        updatedOldAccountDetails := updatedOldAccountDetails + [current];
      }
      return None;
    }

    /** `get_account_details`: fetches each id in turn, stores the record, and routes a copy of it
      * to the new or the old path; the first exception ends the loop. */
    method GetAccountDetails(ctx: Context, ids: seq<string>) returns (err: Option<Error>)
      modifies this
      ensures match Walk(old(State()), ids, ctx)
        case Success(r) => err == None && State() == r
        case Failure(e) => err == Some(e)
    {
      var i := 0;
      while i < |ids|
        invariant 0 <= i <= |ids|
        invariant Walk(old(State()), ids[..i], ctx) == Success(State())
      {
        var id := ids[i];
        assert ids[..i + 1][..i] == ids[..i];
        var response := ctx.fetch(id);
        if response.status != 200 {
          WalkFailureStops(old(State()), ids, i + 1, ctx);
          return Some(HttpError(id, response.status));
        }
        currentAccountDetails := currentAccountDetails[id := response.body];
        if HasHistory(ctx.oldIds, ctx.oldDetails) {
          var current := response.body;
          if id in ctx.newIds {
            ProcessNewAccount(current);
          } else if id in ctx.oldIds {
            if id !in ctx.oldDetails {
              WalkFailureStops(old(State()), ids, i + 1, ctx);
              return Some(KeyError(id));
            }
            err := ProcessOldAccount(current, ctx.oldDetails[id]);
            if err.Some? {
              WalkFailureStops(old(State()), ids, i + 1, ctx);
              return err;
            }
          }
        }
        i := i + 1;
      }
      assert ids[..|ids|] == ids;
      return None;
    }
  }

  /** Lists a set's members once each, in an order the model does not fix (Python's set iteration). */
  method Enumerate(s: set<string>) returns (order: seq<string>)
    ensures forall id :: id in order <==> id in s
    ensures forall i, j :: 0 <= i < j < |order| ==> order[i] != order[j]
  {
    order := [];
    var rest := s;
    while rest != {}
      invariant forall id :: id in s <==> id in order || id in rest
      invariant forall id :: id in order ==> id !in rest
      invariant forall i, j :: 0 <= i < j < |order| ==> order[i] != order[j]
      decreases rest
    {
      var id :| id in rest;
      order := order + [id];
      rest := rest - {id};
    }
  }

  /** The four blobs a successful run stores. */
  datatype Artifacts = Artifacts(
    accountDetails: map<string, Account>,
    idList: string,
    newAccounts: seq<Account>,
    updatedAccounts: seq<Account>)

  /** `main`, without the I/O: walk the listing pages, read the previous snapshot (`oldIdBlob` is
    * None when that blob is missing or unreadable; `oldDetails` is empty in the same case), compute
    * the new ids, run the classification loop, and return what would be stored. An exception from
    * the loop ends the run before anything is stored. */
  method Discover(
    count: int,
    fetchPage: int -> seq<string>,
    oldIdBlob: Option<string>,
    oldDetails: map<string, Account>,
    fetch: string -> Response)
    returns (requested: seq<int>, order: seq<string>, result: Result<Artifacts, Error>)
    ensures |requested| == RequestCount(LastPageIndex(count))
    ensures forall k :: 0 <= k < |requested| ==> requested[k] == PageOffset(k)
    ensures var ids := PageIds(fetchPage, |requested|);
      (result.Success? ==>
        result.value.accountDetails.Keys == ids &&
        (forall id :: id in ids ==> result.value.accountDetails[id] == fetch(id).body) &&
        ((forall id :: id in ids ==> StorableId(id)) ==> DecodeIds(result.value.idList) == ids) &&
        (!HasHistory(ReadOldIds(oldIdBlob), oldDetails) ==>
          result.value.newAccounts == [] && result.value.updatedAccounts == [])) &&
      (result.Failure? && result.error.HttpError? ==>
        result.error.id in ids && fetch(result.error.id).status != 200) &&
      ((forall id :: id in ids ==> fetch(id).status == 200) && !HasHistory(ReadOldIds(oldIdBlob), oldDetails) ==>
        result.Success?)
    ensures (set id | id in order) == PageIds(fetchPage, |requested|)
    ensures forall i, j :: 0 <= i < j < |order| ==> order[i] != order[j]
    ensures var oldIds := ReadOldIds(oldIdBlob);
      var ctx := Context(oldIds, oldDetails, NewIds(PageIds(fetchPage, |requested|), oldIds, oldDetails), fetch);
      match Walk(Reports(map[], [], []), order, ctx)
      case Success(r) =>
        result.Success? && result.value.idList == EncodeIds(order) &&
        r == Reports(result.value.accountDetails, result.value.newAccounts, result.value.updatedAccounts)
      case Failure(e) => result == Failure(e)
    ensures var ids := PageIds(fetchPage, |requested|);
      ReadOldIds(oldIdBlob) == ids &&
      (forall id :: id in ids ==> fetch(id).status == 200 && id in oldDetails && oldDetails[id] == fetch(id).body) ==>
        result.Success? && result.value.newAccounts == [] && result.value.updatedAccounts == []
  {
    var offset := LastPageIndex(count);
    var ids;
    ids, requested := CurrentAccountIds(offset, fetchPage);
    var oldIds := ReadOldIds(oldIdBlob);
    var newIds := NewIds(ids, oldIds, oldDetails);
    order := Enumerate(ids);
    var ctx := Context(oldIds, oldDetails, newIds, fetch);
    var run := new DiffRun();
    var err := run.GetAccountDetails(ctx, order);
    if !HasHistory(oldIds, oldDetails) {
      WalkWithoutHistory(Reports(map[], [], []), order, ctx);
    } else if oldIds == ids && forall id :: id in ids ==> fetch(id).status == 200 && id in oldDetails && oldDetails[id] == fetch(id).body {
      WalkUnchangedSnapshot(Reports(map[], [], []), order, ctx);
    }
    if err.Some? {
      WalkErrors(Reports(map[], [], []), order, ctx);
      return requested, order, Failure(err.value);
    }
    WalkKeepsFetchedRecords(Reports(map[], [], []), order, ctx);
    var idList := EncodeIds(order);
    assert (set id | id in order) == ids;
    if forall id :: id in ids ==> StorableId(id) {
      DecodeEncode(order);
    }
    result := Success(Artifacts(run.currentAccountDetails, idList, run.newAccountDetails, run.updatedOldAccountDetails));
  }
}

=== FILE: idlist.dfy ===
/** The text form of the stored account-id list: one id per line. */
module IdList {
  import opened Wrappers
  import opened Text

  /** `'\n'.join(ids)`, for the ids in the order they are iterated. */
  function EncodeIds(ids: seq<string>): string {
    Join(ids, "\n")
  }

  /** The stored list read back: split on newlines, keep the lines that are not empty, and strip
    * each of them (the emptiness test comes before the strip). */
  function DecodeIds(text: string): set<string> {
    var lines := Split(text, '\n');
    set line | line in lines && line != [] :: Strip(line)
  }

  /** The old-id set a run starts from: a missing or unreadable blob reads as no ids. */
  function ReadOldIds(blob: Option<string>): set<string> {
    match blob
    case None => {}
    case Some(text) => DecodeIds(text)
  }

  /** An id that survives the round trip: not empty, on one line, without surrounding whitespace. */
  predicate StorableId(id: string) {
    id != [] && '\n' !in id && NoSurroundingSpace(id)
  }

  /** Decoding the encoded list gives back the set of ids, whatever their order. */
  lemma DecodeEncode(ids: seq<string>)
    requires forall i :: 0 <= i < |ids| ==> StorableId(ids[i])
    ensures DecodeIds(EncodeIds(ids)) == set id | id in ids
  {
    if ids == [] {
      assert Split([], '\n') == [[]];
    } else {
      SplitJoin(ids, '\n');
      forall i | 0 <= i < |ids|
        ensures Strip(ids[i]) == ids[i]
      {
        StripNoSurroundingSpace(ids[i]);
      }
    }
  }

  /** A line holding only whitespace is not dropped: it is read back as the empty id. */
  lemma BlankLineReadsAsEmptyId(text: string, line: string)
    requires line in Split(text, '\n') && line != [] && AllSpace(line)
    ensures [] in DecodeIds(text)
  {
    StripIsSlice(line);
  }
}

=== FILE: paging.dfy ===
/** The paged walk over the discovered-accounts listing: the number of pages derived from the
  * reported count, and the loop that unions the ids of every page. */
module Paging {

  /** The page size: each request asks for `limit=1000`. */
  const PageSize: int := 1000

  /** The offset of the k-th page request. */
  function PageOffset(k: int): int {
    PageSize * k
  }

  /** `math.floor(count / 1000)`: the index of the last page the walk requests. */
  function LastPageIndex(count: int): (offset: int)
    ensures offset * PageSize <= count < (offset + 1) * PageSize
  {
    count / PageSize
  }

  /** How many requests `while current_offset <= offset` issues. */
  function RequestCount(offset: int): nat {
    if offset >= 0 then offset + 1 else 0
  }

  /** The ids of the first `n` pages. */
  function PageIds(fetchPage: int -> seq<string>, n: nat): set<string> {
    if n == 0 then {}
    else
      var page := fetchPage(PageOffset(n - 1));
      PageIds(fetchPage, n - 1) + set id | id in page
  }

  /** An id is collected exactly when one of the first `n` pages lists it. */
  lemma {:induction false} PageIdsMembers(fetchPage: int -> seq<string>, n: nat, id: string)
    ensures id in PageIds(fetchPage, n) <==> exists k :: 0 <= k < n && id in fetchPage(PageOffset(k))
  {
    if n > 0 {
      PageIdsMembers(fetchPage, n - 1, id);
    }
  }

  /** For a non-negative count, the walk requests every page that can hold one of the `count`
    * records, and at most the last page requested starts at or beyond `count` (it does exactly
    * when `count` is a multiple of the page size, so `count = 1000` gives two requests). */
  lemma PagesCoverCount(count: int)
    requires count >= 0
    ensures var n := RequestCount(LastPageIndex(count));
      n * PageSize > count &&
      (n - 1) * PageSize <= count &&
      (PageOffset(n - 1) == count <==> count % PageSize == 0) &&
      n == (count + PageSize - 1) / PageSize + (if count % PageSize == 0 then 1 else 0)
  {
  }

  /** `get_current_account_id_list`: requests pages `0, 1000, …, 1000 * offset` in turn
    * (`fetchPage` stands for the HTTP call, given the offset) and collects every id listed. */
  method CurrentAccountIds(offset: int, fetchPage: int -> seq<string>) returns (ids: set<string>, requested: seq<int>)
    ensures |requested| == RequestCount(offset)
    ensures forall k :: 0 <= k < |requested| ==> requested[k] == PageOffset(k)
    ensures ids == PageIds(fetchPage, |requested|)
  {
    ids := {};
    requested := [];
    var currentOffset := 0;
    while currentOffset <= offset
      invariant 0 <= currentOffset <= RequestCount(offset)
      invariant |requested| == currentOffset
      invariant forall k :: 0 <= k < |requested| ==> requested[k] == PageOffset(k)
      invariant ids == PageIds(fetchPage, currentOffset)
      decreases offset - currentOffset
    {
      var page := fetchPage(PageOffset(currentOffset));
      requested := requested + [PageOffset(currentOffset)];
      var i := 0;
      while i < |page|
        invariant 0 <= i <= |page|
        invariant ids == PageIds(fetchPage, currentOffset) + set id | id in page[..i]
      {
        ids := ids + {page[i]};
        assert page[..i + 1] == page[..i] + [page[i]];
        i := i + 1;
      }
      assert page[..|page|] == page;
      currentOffset := currentOffset + 1;
    }
  }
}

=== FILE: text.dfy ===
/** The string operations the account differ uses, with Python's semantics:
  * `str.strip()`, `str.split(sep)` for a one-character separator, and `sep.join(parts)`. */
module Text {

  /** The characters `str.strip()` removes when called without arguments (Python's `str.isspace`). */
  predicate IsSpace(c: char) {
    c == ' ' || ('\t' <= c <= '\r') || ('\U{1c}' <= c <= '\U{1f}') || c == '\U{85}' || c == '\U{a0}'
    || c == '\U{1680}' || ('\U{2000}' <= c <= '\U{200a}') || c == '\U{2028}' || c == '\U{2029}'
    || c == '\U{202f}' || c == '\U{205f}' || c == '\U{3000}'
  }

  /** Neither the first nor the last character is whitespace. */
  predicate NoSurroundingSpace(s: string) {
    s == [] || (!IsSpace(s[0]) && !IsSpace(s[|s| - 1]))
  }

  /** `s` with its leading whitespace removed. */
  function TrimStart(s: string): (r: string)
    ensures |r| <= |s|
    decreases |s|
  {
    if s != [] && IsSpace(s[0]) then TrimStart(s[1..]) else s
  }

  /** TrimStart removes a whitespace prefix and stops at the first other character. */
  lemma {:induction false} TrimStartRemovesSpace(s: string)
    ensures TrimStart(s) == s[|s| - |TrimStart(s)|..]
    ensures forall i :: 0 <= i < |s| - |TrimStart(s)| ==> IsSpace(s[i])
    ensures TrimStart(s) == [] || !IsSpace(TrimStart(s)[0])
    decreases |s|
  {
    if s != [] && IsSpace(s[0]) {
      TrimStartRemovesSpace(s[1..]);
    }
  }

  /** `s` with its trailing whitespace removed. */
  function TrimEnd(s: string): (r: string)
    ensures |r| <= |s|
    decreases |s|
  {
    if s != [] && IsSpace(s[|s| - 1]) then TrimEnd(s[..|s| - 1]) else s
  }

  /** TrimEnd removes a whitespace suffix and stops at the last other character. */
  lemma {:induction false} TrimEndRemovesSpace(s: string)
    ensures TrimEnd(s) == s[..|TrimEnd(s)|]
    ensures forall i :: |TrimEnd(s)| <= i < |s| ==> IsSpace(s[i])
    ensures TrimEnd(s) == [] || !IsSpace(TrimEnd(s)[|TrimEnd(s)| - 1])
    decreases |s|
  {
    if s != [] && IsSpace(s[|s| - 1]) {
      TrimEndRemovesSpace(s[..|s| - 1]);
    }
  }

  /** Every character of `s` is whitespace. */
  predicate AllSpace(s: string) {
    forall k :: 0 <= k < |s| ==> IsSpace(s[k])
  }

  /** `r` is the slice of `s` starting at `i`, with only whitespace before and after it. */
  predicate SliceBetweenSpace(s: string, r: string, i: int) {
    0 <= i <= |s| - |r| && r == s[i..i + |r|] && AllSpace(s[..i]) && AllSpace(s[i + |r|..])
  }

  /** Python's `s.strip()`; StripIsSlice states what it returns. */
  function Strip(s: string): (r: string)
    ensures |r| <= |s|
  {
    TrimEnd(TrimStart(s))
  }

  /** Strip returns the one slice of `s` that leaves only whitespace on either side and has none
    * at its own ends. */
  lemma StripIsSlice(s: string)
    ensures NoSurroundingSpace(Strip(s))
    ensures exists i :: SliceBetweenSpace(s, Strip(s), i)
  {
    var t := TrimStart(s);
    var r := TrimEnd(t);
    TrimStartRemovesSpace(s);
    TrimEndRemovesSpace(t);
    var i := |s| - |t|;
    assert r == s[i..i + |r|] by {
      assert t == s[i..] && r == t[..|r|];
    }
    assert AllSpace(s[..i]) by {
      forall k | 0 <= k < i
        ensures IsSpace(s[..i][k])
      {
        assert s[..i][k] == s[k];
      }
    }
    var tail := s[i + |r|..];
    assert AllSpace(tail) by {
      forall k | 0 <= k < |tail|
        ensures IsSpace(tail[k])
      {
        assert tail[k] == t[|r| + k];
      }
    }
    assert SliceBetweenSpace(s, r, i);
    assert r != [] ==> r[0] == t[0];
  }

  /** Every element of `parts` stripped. */
  function StripAll(parts: seq<string>): (r: seq<string>)
    ensures |r| == |parts| && forall i :: 0 <= i < |r| ==> r[i] == Strip(parts[i])
  {
    seq(|parts|, i requires 0 <= i < |parts| => Strip(parts[i]))
  }

  /** Python's `sep.join(parts)`. */
  function Join(parts: seq<string>, sep: string): string {
    if |parts| == 0 then []
    else if |parts| == 1 then parts[0]
    else parts[0] + sep + Join(parts[1..], sep)
  }

  /** Python's `s.split(sep)` for a single-character separator: the pieces between separators,
    * at least one of them, none containing `sep`, which joined back with `sep` give `s`. */
  function Split(s: string, sep: char): (r: seq<string>)
    ensures |r| >= 1
    ensures forall i :: 0 <= i < |r| ==> sep !in r[i]
    ensures Join(r, [sep]) == s
    decreases |s|
  {
    if s == [] then [[]]
    else
      var rest := Split(s[1..], sep);
      if s[0] == sep then
        assert s == [sep] + s[1..];
        [[]] + rest
      else
        var r := [[s[0]] + rest[0]] + rest[1..];
        assert r[1..] == rest[1..];
        r
  }

  /** A piece without the separator is not split. */
  lemma {:induction false} SplitWithoutSeparator(a: string, sep: char)
    requires sep !in a
    ensures Split(a, sep) == [a]
    decreases |a|
  {
    if a != [] {
      SplitWithoutSeparator(a[1..], sep);
      assert [a[0]] + a[1..] == a;
    }
  }

  /** Splitting at the first separator. */
  lemma {:induction false} SplitAtFirst(a: string, u: string, sep: char)
    requires sep !in a
    ensures Split(a + [sep] + u, sep) == [a] + Split(u, sep)
    decreases |a|
  {
    var s := a + [sep] + u;
    if a == [] {
      assert s[1..] == u;
    } else {
      assert s[1..] == a[1..] + [sep] + u;
      SplitAtFirst(a[1..], u, sep);
      assert [a[0]] + a[1..] == a;
    }
  }

  /** Text with one separator splits into the two pieces around it. */
  lemma SplitTwo(a: string, b: string, sep: char)
    requires sep !in a && sep !in b
    ensures Split(a + [sep] + b, sep) == [a, b]
  {
    SplitAtFirst(a, b, sep);
    SplitWithoutSeparator(b, sep);
  }

  /** Split undoes Join when no part holds the separator (and there is at least one part). */
  lemma {:induction false} SplitJoin(parts: seq<string>, sep: char)
    requires |parts| >= 1
    requires forall i :: 0 <= i < |parts| ==> sep !in parts[i]
    ensures Split(Join(parts, [sep]), sep) == parts
    decreases |parts|
  {
    if |parts| == 1 {
      SplitWithoutSeparator(parts[0], sep);
    } else {
      SplitJoin(parts[1..], sep);
      SplitAtFirst(parts[0], Join(parts[1..], [sep]), sep);
      assert [parts[0]] + parts[1..] == parts;
    }
  }

  /** Stripping ignores one leading space. */
  lemma StripLeadingSpace(t: string)
    ensures Strip(" " + t) == Strip(t)
  {
    assert (" " + t)[1..] == t;
  }

  /** A string without surrounding whitespace is its own strip. */
  lemma StripNoSurroundingSpace(t: string)
    requires NoSurroundingSpace(t)
    ensures Strip(t) == t
  {
  }

  /** Splitting `", "`-joined text on `','` leaves each part after the first behind one space. */
  lemma {:induction false} SplitCommaSpaceJoin(parts: seq<string>)
    requires |parts| >= 1
    requires forall i :: 0 <= i < |parts| ==> ',' !in parts[i]
    ensures var r := Split(Join(parts, ", "), ',');
      |r| == |parts| && r[0] == parts[0] && forall i :: 1 <= i < |r| ==> r[i] == " " + parts[i]
    decreases |parts|
  {
    if |parts| == 1 {
      SplitWithoutSeparator(parts[0], ',');
    } else {
      var tail := Join(parts[1..], ", ");
      SplitCommaSpaceJoin(parts[1..]);
      assert Join(parts, ", ") == parts[0] + [','] + (" " + tail);
      SplitAtFirst(parts[0], " " + tail, ',');
      assert (" " + tail)[1..] == tail;
    }
  }

  /** Re-reading `", "`-joined parts (split on `','`, strip each piece) gives the parts back when
    * they hold no comma and no surrounding whitespace. */
  lemma RereadCommaSpaceJoin(parts: seq<string>)
    requires |parts| >= 1
    requires forall i :: 0 <= i < |parts| ==> ',' !in parts[i] && NoSurroundingSpace(parts[i])
    ensures StripAll(Split(Join(parts, ", "), ',')) == parts
  {
    var r := Split(Join(parts, ", "), ',');
    SplitCommaSpaceJoin(parts);
    forall i | 0 <= i < |parts|
      ensures Strip(r[i]) == parts[i]
    {
      StripNoSurroundingSpace(parts[i]);
      if i > 0 {
        StripLeadingSpace(parts[i]);
      }
    }
  }
}

=== FILE: wrappers.dfy ===
/** Optional values (a dictionary key that may be missing) and results with an error (a raised exception). */
module Wrappers {

  datatype Option<+T> = None | Some(value: T) {
    /** The value, or `default` when missing: Python's `dict.get(key, default)`. */
    function GetOr(default: T): T {
      match this
      case Some(v) => v
      case None => default
    }
  }

  datatype Result<+R, +E> = Success(value: R) | Failure(error: E) {
    predicate IsFailure() {
      Failure?
    }

    function PropagateFailure<U>(): Result<U, E>
      requires Failure?
    {
      Failure(error)
    }

    function Extract(): R
      requires Success?
    {
      value
    }
  }
}
